=== FILE: README.md ===
# QuickCart checkout and cart pipeline — a Dafny model

This project models the part of the QuickCart storefront that moves money and
orders around:

- the client cart of `AppContext`: a product-id → quantity object with
  `addToCart`, `updateCartQuantity`, `getCartCount` and `getCartAmount`, and
  the full-cart sync it posts after every change;
- the order summary panel (`OrderSummary`): building the order request from
  the cart, its two rejections, and the displayed amount, 2% tax and total;
- the order-creation route: validation, the server-side price recomputation,
  the `order/created` event with the tax already added, and the cart reset;
- the background handlers: the three identity-provider handlers over the user
  store, and the batched `order/created` consumer that turns events into
  Order documents;
- the Order schema (required paths, default status "Order Placed");
- the cart-update route, which overwrites one user's stored cart.

Everything is a pure function over immutable values. The user database is a
`map<UserId, User>`, the order collection is a `seq<Order>`, and the product
catalog is a `seq<Product>` searched by id. Prices are `nat` and quantities
are `int`, because the source never checks their sign. The tax
`Math.floor(amount * 0.02)` is `amount / 50`, since Dafny's `/` rounds down
for a positive divisor.

A JavaScript object lists string keys in insertion order, except that keys
that look like array indices ("1", "42") come first in numeric order. The
cart's keys are product `_id`s (app/product/[id]/page.jsx:24, 142), which are
MongoDB ObjectId strings and never index-like, so for the cart the order is
insertion order. `Object.keys` and `for … in` depend on that order, so the
client cart is an association list
(`CartState.Cart`, a `seq<Entry>`). `CartState.Get` is its map view. Contracts
about "this key changed, no other did" are stated through `Get`.

Parameters stand in for the effects the model does not perform:

- `loggedIn` stands for Clerk's user;
- `remoteOk` is whether the axios post resolved, that is whether a 2xx reply
  came back; axios rejects any other status, and that lands in the `catch`.
  The cart route answers 200 in both of its branches
  (app/api/cart/update/route.js:17, 19), and the client never reads the
  reply's `success` field, so a `success: false` reply still counts as
  resolved;
- `accepted` is the `success` field of the order reply;
- `delivered` is the outcome of `inngest.send`;
- `now` is `Date.now()`;
- `userId` is the verified caller.

Files (one module each): `base.dfy`, `catalog.dfy`, `pricing.dfy`,
`cart_state.dfy`, `checkout.dfy`, `users.dfy`, `cart_sync.dfy`,
`user_sync.dfy`, `order_schema.dfy`, `order_batch.dfy`, `order_create.dfy`,
and `pipeline.dfy`, which holds the end-to-end lemmas.

Two behaviours of the code differ from what one might expect of such a
pipeline, and the model follows the code in both:

- `created` and `updated` are not one idempotent upsert. `created` is
  `User.create`, an insert, so a second create of the same id fails on the
  unique `_id`. `updated` is `findByIdAndUpdate` without `upsert`, so an
  absent id stays absent.
- The order route clears the cart after emitting the event, but it sends the
  event before it looks up the user. A caller without a user record therefore
  gets a failure reply although the order event went out.

## Model

| member | source | states |
|---|---|---|
| CartState.Put | context/AppContext.jsx:76-78 | setting a key gives it exactly that quantity and leaves every other key's value as it was; a new key is appended at the end; an existing key leaves the length unchanged |
| CartState.PutInPlace | context/AppContext.jsx:76-78 | assigning to an existing key rewrites that entry where it stands and leaves every other entry at its position, so the key order is unchanged |
| CartState.GetSpec | context/AppContext.jsx:75 | reading a key finds a value exactly when some entry has that key, and the value is that entry's quantity |
| CartState.PutEntries | context/AppContext.jsx:76-78 | after storing a quantity every entry is either the stored one or an entry that was already there |
| CartState.PutWellFormed | context/AppContext.jsx:74-80 | storing a quantity never creates a second entry for the same product id |
| CartState.Remove | context/AppContext.jsx:107-108 | after `delete` the key is absent and every other key keeps its value |
| CartState.RemoveAbsent | context/AppContext.jsx:107-108 | deleting a key that is not there leaves the cart exactly as it was |
| CartState.RemoveInOrder | context/AppContext.jsx:107-108 | deleting a present key takes out exactly its entry, where it stands; the other entries keep their order, and so does `Object.keys` |
| CartState.AddToCart | context/AppContext.jsx:72-80 | an absent or zero quantity becomes 1, any other quantity q becomes q+1, and no other key changes |
| CartState.UpdateCartQuantity | context/AppContext.jsx:103-112 | quantity 0 removes the key rather than storing 0; any other value is stored exactly as given; no other key changes |
| CartState.Count | context/AppContext.jsx:131-139 | the item count is never negative, and it is 0 exactly when no entry is positive |
| CartState.CountPut | context/AppContext.jsx:131-139 | setting one quantity moves the count by exactly the change in that entry's positive part |
| CartState.CountRemove | context/AppContext.jsx:131-139 | deleting a key takes that entry's positive part out of the count |
| CartState.AddToCartCount | context/AppContext.jsx:131-139 | after `addToCart` the count grows by exactly 1 unless the stored quantity was negative, in which case it is unchanged |
| CartState.UpdateCartQuantityCount | context/AppContext.jsx:131-139 | after `updateCartQuantity` the count reflects exactly the new quantity in place of the old one |
| CartState.GetCartCount | context/AppContext.jsx:131-139 | the source's loop computes the sum of the strictly positive quantities, which is never negative |
| CartState.CartAmount | context/AppContext.jsx:143-152 | a successful amount is never negative |
| CartState.CartAmountFails | context/AppContext.jsx:146-149 | the amount succeeds exactly when every positive entry's product is in the list; otherwise it fails naming a positive entry whose product is missing, so non-positive entries never need a product |
| CartState.CartAmountOfEmpty | context/AppContext.jsx:147-149 | a cart without positive entries costs 0, whatever products it names |
| CartState.GetCartAmount | context/AppContext.jsx:143-152 | the source's loop, which stops at the first positive entry without a product, returns the same result as the recursive amount, error included |
| CartState.Sync | context/AppContext.jsx:80-99 | the local cart is the new cart whatever the remote outcome; a request is attempted exactly when a user is logged in (a rejected `getToken` stops it before sending), and it carries the full new cart; the success notice appears exactly when the HTTP call resolved, whatever the reply's `success` says |
| CartState.AddToCartStep | context/AppContext.jsx:72-100 | the add transition sets the local cart first and posts the full cart only for a logged-in user |
| CartState.UpdateCartQuantityStep | context/AppContext.jsx:103-128 | the quantity transition sets the local cart first and posts the full cart only for a logged-in user |
| CartState.NoRollback | context/AppContext.jsx:89-98 | a failed remote call leaves the same local cart as a successful one |
| Catalog.Find | context/AppContext.jsx:146 | the lookup finds nothing exactly when no product has the id; otherwise it returns a product with that id |
| Catalog.FindFirst | context/AppContext.jsx:146 | the product found is the first one in the list with that id |
| Pricing.Tax | components/OrderSummary.jsx:219 | the tax is the largest t with 50·t ≤ amount, which is floor(amount × 0.02); it lies between 0 and the amount for a non-negative amount |
| Pricing.Total | components/OrderSummary.jsx:227 | the total exceeds the amount by exactly floor(amount × 0.02), so it is never below a non-negative amount |
| Pricing.TaxMonotonic | components/OrderSummary.jsx:219 | a larger amount never has a smaller tax or a smaller total |
| Pricing.TotalExamples | app/api/order/create/route.js:36 | 1000 is charged as 1020, 45 stays 45, and 49 and 50 straddle the first tax unit |
| Pricing.ItemsAmount | app/api/order/create/route.js:24-27 | the server's sum succeeds exactly when every item's product exists; otherwise it fails with the first missing product; the sum is non-negative when no quantity is negative |
| Checkout.BuildItems | components/OrderSummary.jsx:66-71 | every submitted item has quantity > 0 and pairs a cart key with that key's own quantity |
| Checkout.BuildItemsComplete | components/OrderSummary.jsx:66-71 | every cart entry with quantity > 0 is among the submitted items |
| Checkout.BuildItemsOfEntry | components/OrderSummary.jsx:66-71 | a single key yields exactly one item with its own quantity when that quantity is positive, and nothing otherwise |
| Checkout.BuildItemsAppend | components/OrderSummary.jsx:66-71 | the items of two consecutive parts of the cart are the items of each part in turn, so the list follows key order and holds each positive key exactly once |
| Checkout.BuildItemsEmpty | components/OrderSummary.jsx:71-73 | the item list is empty exactly when the cart count is 0 |
| Checkout.CreateOrder | components/OrderSummary.jsx:59-89 | no address gives "Please select an address." and no request; otherwise a cart without positive entries gives "Cart is empty."; otherwise the request holds the address id and the positive entries |
| Checkout.PlaceOrder | components/OrderSummary.jsx:59-100 | a rejection sends nothing and keeps the cart; a sent order empties the cart exactly when the reply reports success |
| Checkout.ShowSummary | components/OrderSummary.jsx:203-227 | the panel shows the item count, the amount, the floor 2% tax and amount + tax, which is at least the amount; it cannot render when the amount fails |
| Checkout.ItemsAmountMatchesCart | components/OrderSummary.jsx:66-71 | the server's sum over the submitted items equals the client's cart amount, including which product is reported missing |
| CartSync.Post | app/api/cart/update/route.js:8-21 | the call succeeds exactly when the user record exists; the stored cart then equals the posted cart (a full overwrite); only that user's `cartItems` changes; a failure leaves the store untouched |
| CartSync.PostIdempotent | app/api/cart/update/route.js:15 | posting the same cart twice leaves the store as posting it once |
| CartSync.LastPostWins | app/api/cart/update/route.js:15 | after two posts the store is what the second post alone would leave |
| UserSync.ProfileOf | config/inngest.js:20-27 | a payload without an email address fails; otherwise the profile has the payload id, the first email, first name + " " + last name with a null or missing name spelled "null" or "undefined", and the image URL |
| UserSync.AbsentLastNameIsSpelledOut | config/inngest.js:25 | a null last name yields "Ada null" and a missing one "Ada undefined", not "Ada" |
| UserSync.Created | config/inngest.js:14-31 | the create handler succeeds exactly when the payload has an email and the id is new; it then adds one record holding exactly the derived profile (id, first email, composed name, image) and an empty cart, and leaves every other record alone; an existing id is an error, never an overwrite |
| UserSync.Updated | config/inngest.js:34-53 | an existing record gets exactly the derived profile (id, first email, composed name, image) and keeps its cart; an absent id leaves the store unchanged; the set of ids never changes |
| UserSync.Deleted | config/inngest.js:56-66 | the id is absent afterwards, every other record is unchanged, and an absent id is a no-op |
| UserSync.Apply | config/inngest.js:14-66 | a create succeeds exactly when the payload has an email and the id is new, and adds that id; an update succeeds exactly when the payload has an email and keeps the set of ids; a delete never fails and removes the id; every event changes at most the record it names and keeps records filed under their own id |
| UserSync.CreatedTwice | config/inngest.js:29 | a redelivered create fails as a duplicate |
| UserSync.UpdatedTwice | config/inngest.js:51 | an update applied twice leaves the same store as applied once |
| UserSync.DeletedTwice | config/inngest.js:64 | a delete applied twice leaves the same store as applied once |
| UserSync.DeleteUndoesCreate | config/inngest.js:29 | deleting a just-created user restores the earlier store |
| UserSync.UpdateAfterCreate | config/inngest.js:44-49 | create and update derive the same fields, so an update carrying the create's payload changes nothing |
| UserSync.UpdateBeforeCreateIsLost | config/inngest.js:51 | an update that arrives before the create of a new user is dropped, and the record keeps the create's profile |
| OrderSchema.ValidateItems | models/Order.js:20-25 | the items are accepted exactly when every one has a non-empty product and a quantity; the accepted lines keep their order and values |
| OrderSchema.Validate | models/Order.js:5-41 | a document is accepted exactly when it has a non-empty userId and address, an `amout`, a date and valid items; the values are kept as given; a missing status becomes "Order Placed" and missing items become the empty list |
| OrderSchema.InsertMany | config/inngest.js:90 | either every document is valid and all are appended in order after the existing orders, or nothing is stored |
| OrderBatch.ToDoc | config/inngest.js:81-87 | the document copies userId, items, address and date from the event, puts the event's `amount` unchanged into `amout`, and sets no status |
| OrderBatch.ToDocs | config/inngest.js:80-88 | exactly one document per event, in event order |
| OrderBatch.CreateUserOrder | config/inngest.js:70-93 | for a batch of 1 to 5 events, either all become orders or none does; on success it reports `processed` equal to the number of events; each order carries its event's userId, address, date and lines, its `amount` unrecomputed, and status "Order Placed" |
| OrderBatch.CompleteEventIsValid | models/Order.js:10-41 | an event carrying all of userId, address, amount, date and well-formed items always maps to a valid order with status "Order Placed" |
| OrderBatch.MissingAmountFailsBatch | config/inngest.js:90 | one event without an amount makes the whole batch fail |
| OrderCreate.Post | app/api/order/create/route.js:11-50 | a missing address or empty item list is "Invalid data", with no event and no store change; an unknown product fails with no event; otherwise the event carries the caller, the address and the items as received, amount plus floor tax, and the time; success requires both the event and an existing user, and only then is that user's cart emptied |
| OrderCreate.EventEmittedForUnknownUser | app/api/order/create/route.js:30-48 | a caller without a user record gets a failure reply even though the order event was emitted |
| OrderCreate.ScenarioNoTax | app/api/order/create/route.js:24-36 | two units at 10 and one at 25 are charged 45 |
| OrderCreate.ScenarioTax | app/api/order/create/route.js:24-36 | one hundred units at 10 are charged 1020 |
| Pipeline.SyncedCartMatchesLocal | context/AppContext.jsx:89-93 | once a logged-in user's sync reaches the cart endpoint, the stored cart equals the local cart, whatever was stored before |
| Pipeline.SuccessNoticeWithoutStoredCart | app/api/cart/update/route.js:18-19 | for a logged-in caller without a user record the cart route stores nothing and replies `success: false`, yet the client shows "Item added to the cart" or "Cart updated." |
| Pipeline.OrderClearsCartLikeSync | app/api/order/create/route.js:42-44 | the order route's cart reset leaves the same store as posting `{}` to the cart endpoint |
| Pipeline.ClientRequestIsValid | app/api/order/create/route.js:19-21 | a request built by the order summary is never refused as "Invalid data" |
| Pipeline.EmittedEventIsComplete | config/inngest.js:81-87 | for a body whose items each carry a product id string and a numeric quantity, every event the route emits maps to a storable order, given a non-empty caller id and non-empty product ids |
| Pipeline.CheckoutCharges | app/api/order/create/route.js:24-36 | with the same catalog on both sides, the route charges exactly the total the panel displayed; both carts end empty; the consumer stores one order with that `amout`, status "Order Placed" and the submitted lines |

## Left out

- Network, authentication and the database driver: the axios calls, Clerk's `getAuth` and `getToken`, `connectDB`, and Inngest's transport. Their outcomes are parameters, as described above. A rejected `getToken` is folded into `remoteOk` or `accepted` being false; see the next two lines for what that leaves unmodelled.
- CartState.Sync: records the cart request of a logged-in user even when `getToken` rejects (context/AppContext.jsx:85, 117), although in the code no request then goes out; only the failure notice, which `remoteOk = false` gives, follows the code in that case.
- Checkout.PlaceOrder: with `accepted = false` returns `Sent` even when `getToken` rejected (components/OrderSummary.jsx:77) and no request went out; the cart is kept either way, as in the code.
- Concurrency and async ordering: the fire-and-forget posts, the `async` reducer in the order route, and the un-awaited `user.save()` in the cart route.
- CartSync.Post: assumes the un-awaited `user.save()` persists; a failed save after a `success: true` reply is not modelled.
- OrderCreate.Post: assumes the body's `items` is an array (a missing `items` throws at `.length`), and assumes `user.save()` succeeds after the cart reset.
- OrderCreate.Post: takes every item as `{product: string, quantity: number}`. The route reads `items` as untyped JSON (app/api/order/create/route.js:16), and the code does otherwise for an item without a numeric quantity: `offerPrice * undefined` is NaN, the event amount is NaN and travels as `null`, yet the cart is cleared and the reply is `success: true`; the consumer's `insertMany` then rejects the whole batch, other customers' orders included. The model's typed items cannot express that request.
- UserSync.Created: of the database errors, only the duplicate `_id` is modelled. Other write failures are not.
- OrderSchema.Validate: models only the `required` checks. Mongoose's type casting (such as a numeric string becoming a Number) is not modelled, because the model's fields are already typed.
- CartState.CartAmount: leaves out `Math.floor(total * 100) / 100`, which is the identity on the integer prices modelled here. Floating point and `toFixed(2)` display are not modelled.
- The batching window of the queue (collect up to 5 events or wait 5 seconds), plus delivery and retries, are library internals and time-based. Only the 1..5 batch size is kept, as the precondition of `OrderBatch.CreateUserOrder`.
- Product, address and order-listing routes, the address schema, page rendering and routing are not part of this model. The User schema (models/User.js) is not part of this model either; new users are taken to start with an empty cart.
- CartState.Cart: orders keys by insertion only. JavaScript's rule that index-like keys ("1", "42") come first in numeric order is not modelled, because product ids are ObjectId strings.
- The notice texts of the failed cart posts (`error.message`) are not modelled; the notice only records failure.

=== FILE: base.dfy ===
/** Identifiers, optional values and the error kinds shared by the whole
    storefront model. Every failure that a request or handler result of the
    model reports is one `Error` constructor; the cart-sync notice and the
    cart route's reply carry only a success flag. */
module Base {

  type ProductId = string
  type UserId = string
  type AddressId = string

  datatype Option<+T> = None | Some(value: T) {
    function GetOr(default: T): T {
      match this
      case Some(v) => v
      case None => default
    }
  }

  datatype Error =
    | NoAddressSelected              // client: "Please select an address."
    | CartEmpty                      // client: "Cart is empty."
    | InvalidData                    // server: "Invalid data"
    | UnknownProduct(id: ProductId)  // a price lookup found no product
    | UserNotFound(user: UserId)     // a user lookup returned null
    | DuplicateUser(user: UserId)    // inserting an `_id` that already exists
    | NoEmailAddress                 // identity payload without an email address
    | SendFailed                     // the event could not be handed to the queue
    | ValidationFailed               // a document violates the Order schema

  datatype Result<+T> = Ok(value: T) | Err(error: Error)

  /** Adds an offset to a successful amount; passes an error through. */
  function Shift(r: Result<int>, offset: int): (s: Result<int>)
    ensures s.Ok? <==> r.Ok?
    ensures s.Err? ==> s.error == r.error
    ensures s.Ok? ==> s.value - offset == r.value
  {
    match r
    case Ok(v) => Ok(v + offset)
    case Err(e) => Err(e)
  }
}

=== FILE: cart_state.dfy ===
/** The client cart of `AppContext`: a JavaScript object from product id to
    quantity. A JS object keeps non-index keys in insertion order, and
    product ids are ObjectId strings, never index-like, so the cart is an
    association list; `Get` is its map view. The remote sync that follows
    every mutation is an effect described by `Step`, not performed. */
module CartState {
  import opened Base
  import opened Catalog

  datatype Entry = Entry(id: ProductId, qty: int)

  type Cart = seq<Entry>

  /** No product id occurs twice: the list is a faithful map. */
  predicate WellFormed(c: Cart) {
    forall i, j :: 0 <= i < j < |c| ==> c[i].id != c[j].id
  }

  /** `cartItems[id]`, or `undefined` as `None`. */
  function Get(c: Cart, id: ProductId): Option<int> {
    if |c| == 0 then None
    else if c[0].id == id then Some(c[0].qty)
    else Get(c[1..], id)
  }

  /** `Get` finds a key exactly when some entry has it, and returns that
      entry's quantity. */
  lemma {:induction false} GetSpec(c: Cart, id: ProductId)
    ensures Get(c, id).None? <==> forall i :: 0 <= i < |c| ==> c[i].id != id
    ensures Get(c, id).Some? ==> Entry(id, Get(c, id).value) in c
  {
    if |c| > 0 && c[0].id != id {
      GetSpec(c[1..], id);
      assert forall i :: 1 <= i < |c| ==> c[i] == c[1..][i - 1];
    }
  }

  /** JavaScript truthiness of a stored quantity (`if (cartData[itemId])`). */
  predicate Truthy(q: Option<int>) {
    q.Some? && q.value != 0
  }

  /** `cartData[id] = q`: an existing key keeps its place, a new key is appended. */
  function Put(c: Cart, id: ProductId, q: int): (r: Cart)
    ensures Get(r, id) == Some(q)
    ensures forall k :: k != id ==> Get(r, k) == Get(c, k)
    ensures Get(c, id).None? ==> r == c + [Entry(id, q)]
    ensures Get(c, id).Some? ==> |r| == |c|
  {
    if |c| == 0 then [Entry(id, q)]
    else if c[0].id == id then
      var r := [Entry(id, q)] + c[1..];
      assert r[1..] == c[1..];
      r
    else
      var rest := Put(c[1..], id, q);
      var r := [c[0]] + rest;
      assert r[1..] == rest;
      r
  }

  /** Every entry after a put is the new one or an old one. */
  lemma {:induction false} PutEntries(c: Cart, id: ProductId, q: int)
    ensures forall i :: 0 <= i < |Put(c, id, q)| ==> Put(c, id, q)[i].id == id || Put(c, id, q)[i] in c
  {
    if |c| > 0 && c[0].id != id {
      PutEntries(c[1..], id, q);
      var rest := Put(c[1..], id, q);
      assert Put(c, id, q) == [c[0]] + rest;
      assert forall i :: 1 <= i < |Put(c, id, q)| ==> Put(c, id, q)[i] == rest[i - 1];
      assert forall e :: e in c[1..] ==> e in c;
    }
  }

  lemma {:induction false} PutWellFormed(c: Cart, id: ProductId, q: int)
    ensures WellFormed(c) ==> WellFormed(Put(c, id, q))
  {
    if WellFormed(c) && |c| > 0 && c[0].id != id {
      var tail := c[1..];
      var rest := Put(tail, id, q);
      assert WellFormed(tail) by {
        forall i, j | 0 <= i < j < |tail| ensures tail[i].id != tail[j].id {
          assert tail[i] == c[i + 1] && tail[j] == c[j + 1];
        }
      }
      PutWellFormed(tail, id, q);
      PutEntries(tail, id, q);
      forall k | 0 <= k < |rest| ensures rest[k].id != c[0].id {
        if rest[k].id != id {
          var m :| 0 <= m < |tail| && tail[m] == rest[k];
          assert c[m + 1] == rest[k];
        }
      }
      var r := [c[0]] + rest;
      assert Put(c, id, q) == r;
      forall i, j | 0 <= i < j < |r| ensures r[i].id != r[j].id {
        assert r[j] == rest[j - 1];
        if i > 0 {
          assert r[i] == rest[i - 1];
        }
      }
    }
  }

  /** Assigning to an existing key rewrites its entry where it stands: the
      key order, and so the order of `Object.keys`, is unchanged. */
  lemma {:induction false} PutInPlace(c: Cart, id: ProductId, q: int)
    requires WellFormed(c)
    ensures Get(c, id).Some? ==>
              |Put(c, id, q)| == |c|
              && forall i :: 0 <= i < |c| ==> Put(c, id, q)[i] == (if c[i].id == id then Entry(id, q) else c[i])
  {
    if |c| > 0 && Get(c, id).Some? {
      var r := Put(c, id, q);
      if c[0].id == id {
        assert r == [Entry(id, q)] + c[1..];
        forall i | 0 <= i < |c| ensures r[i] == (if c[i].id == id then Entry(id, q) else c[i]) {
          if i > 0 {
            assert c[0].id != c[i].id;
            assert r[i] == c[i];
          }
        }
      } else {
        var tail := c[1..];
        assert WellFormed(tail) by {
          forall i, j | 0 <= i < j < |tail| ensures tail[i].id != tail[j].id {
            assert tail[i] == c[i + 1] && tail[j] == c[j + 1];
          }
        }
        PutInPlace(tail, id, q);
        var rest := Put(tail, id, q);
        assert r == [c[0]] + rest;
        forall i | 0 <= i < |c| ensures r[i] == (if c[i].id == id then Entry(id, q) else c[i]) {
          if i > 0 {
            assert r[i] == rest[i - 1] && c[i] == tail[i - 1];
          }
        }
      }
    }
  }

  /** `delete cartData[id]`. */
  function Remove(c: Cart, id: ProductId): (r: Cart)
    ensures Get(r, id).None?
    ensures forall k :: k != id ==> Get(r, k) == Get(c, k)
    ensures forall i :: 0 <= i < |r| ==> r[i] in c
    ensures |r| <= |c|
    ensures WellFormed(c) ==> WellFormed(r)
  {
    if |c| == 0 then []
    else if c[0].id == id then Remove(c[1..], id)
    else
      var rest := Remove(c[1..], id);
      var r := [c[0]] + rest;
      assert r[1..] == rest;
      assert forall i :: 1 <= i < |r| ==> r[i] == rest[i - 1];
      r
  }

  /** Deleting an absent key changes nothing. */
  lemma {:induction false} RemoveAbsent(c: Cart, id: ProductId)
    requires Get(c, id).None?
    ensures Remove(c, id) == c
  {
    if |c| > 0 {
      RemoveAbsent(c[1..], id);
      assert [c[0]] + c[1..] == c;
    }
  }

  /** The position of a key that is present. */
  function IndexOf(c: Cart, id: ProductId): (i: nat)
    requires Get(c, id).Some?
    ensures i < |c| && c[i].id == id
  {
    if c[0].id == id then 0 else 1 + IndexOf(c[1..], id)
  }

  /** `delete` takes the key's entry out where it stands: the other keys keep
      their relative order. */
  lemma {:induction false} RemoveInOrder(c: Cart, id: ProductId)
    requires WellFormed(c) && Get(c, id).Some?
    ensures Remove(c, id) == c[..IndexOf(c, id)] + c[IndexOf(c, id) + 1..]
  {
    var tail := c[1..];
    assert WellFormed(tail) by {
      forall i, j | 0 <= i < j < |tail| ensures tail[i].id != tail[j].id {
        assert tail[i] == c[i + 1] && tail[j] == c[j + 1];
      }
    }
    if c[0].id == id {
      assert Get(tail, id).None? by {
        GetSpec(tail, id);
        forall k | 0 <= k < |tail| ensures tail[k].id != id {
          assert tail[k] == c[k + 1];
        }
      }
      RemoveAbsent(tail, id);
    } else {
      RemoveInOrder(tail, id);
      var j := IndexOf(tail, id);
      assert Remove(c, id) == [c[0]] + (tail[..j] + tail[j + 1..]);
      assert [c[0]] + (tail[..j] + tail[j + 1..]) == c[..j + 1] + c[j + 2..];
    }
  }

  /** `addToCart`: an absent or zero quantity becomes 1, any other quantity
      grows by one; no other key changes. */
  function AddToCart(c: Cart, id: ProductId): (r: Cart)
    ensures !Truthy(Get(c, id)) ==> Get(r, id) == Some(1)
    ensures Truthy(Get(c, id)) ==> Get(r, id) == Some(Get(c, id).value + 1)
    ensures forall k :: k != id ==> Get(r, k) == Get(c, k)
    ensures WellFormed(c) ==> WellFormed(r)
  {
    var cur := Get(c, id);
    PutWellFormed(c, id, if Truthy(cur) then cur.value + 1 else 1);
    Put(c, id, if Truthy(cur) then cur.value + 1 else 1)
  }

  /** `updateCartQuantity`: 0 deletes the key, anything else is stored as given. */
  function UpdateCartQuantity(c: Cart, id: ProductId, q: int): (r: Cart)
    ensures q == 0 ==> Get(r, id).None?
    ensures q != 0 ==> Get(r, id) == Some(q)
    ensures forall k :: k != id ==> Get(r, k) == Get(c, k)
    ensures WellFormed(c) ==> WellFormed(r)
  {
    if q == 0 then Remove(c, id)
    else
      PutWellFormed(c, id, q);
      Put(c, id, q)
  }

  /** The part of a quantity that `getCartCount` adds. */
  function Pos(q: int): nat {
    if q > 0 then q else 0
  }

  /** Quantity of `id`, with an absent key read as 0. */
  function QtyOf(c: Cart, id: ProductId): int {
    Get(c, id).GetOr(0)
  }

  /** Σ of the strictly positive quantities. */
  function Count(c: Cart): (n: int)
    ensures n >= 0
    ensures (forall i :: 0 <= i < |c| ==> c[i].qty <= 0) <==> n == 0
  {
    if |c| == 0 then 0
    else
      var rest := Count(c[1..]);
      assert forall i :: 1 <= i < |c| ==> c[1..][i - 1] == c[i];
      Pos(c[0].qty) + rest
  }

  /** Setting one quantity moves the count by exactly the change in its
      positive part. */
  lemma {:induction false} CountPut(c: Cart, id: ProductId, q: int)
    ensures Count(Put(c, id, q)) == Count(c) - Pos(QtyOf(c, id)) + Pos(q)
  {
    if |c| == 0 {
    } else if c[0].id == id {
      assert Put(c, id, q)[1..] == c[1..];
    } else {
      CountPut(c[1..], id, q);
      assert Put(c, id, q)[1..] == Put(c[1..], id, q);
    }
  }

  /** Deleting a key removes its positive part from the count. */
  lemma {:induction false} CountRemove(c: Cart, id: ProductId)
    requires WellFormed(c)
    ensures Count(Remove(c, id)) == Count(c) - Pos(QtyOf(c, id))
  {
    if |c| == 0 {
    } else {
      var tail := c[1..];
      assert forall i :: 0 <= i < |tail| ==> tail[i] == c[i + 1];
      assert WellFormed(tail);
      CountRemove(tail, id);
      if c[0].id == id {
        GetSpec(tail, id);
        assert Get(tail, id).None?;
      } else {
        assert Remove(c, id)[1..] == Remove(c[1..], id);
      }
    }
  }

  /** `getCartCount` grows by one after `addToCart`, unless the stored
      quantity was negative (then it stays non-positive and uncounted). */
  lemma {:induction false} AddToCartCount(c: Cart, id: ProductId)
    ensures QtyOf(c, id) >= 0 ==> Count(AddToCart(c, id)) == Count(c) + 1
    ensures QtyOf(c, id) < 0 ==> Count(AddToCart(c, id)) == Count(c)
  {
    var cur := Get(c, id);
    CountPut(c, id, if Truthy(cur) then cur.value + 1 else 1);
  }

  /** `getCartCount` after `updateCartQuantity` reflects exactly the new quantity. */
  lemma {:induction false} UpdateCartQuantityCount(c: Cart, id: ProductId, q: int)
    requires WellFormed(c)
    ensures Count(UpdateCartQuantity(c, id, q)) == Count(c) - Pos(QtyOf(c, id)) + Pos(q)
  {
    if q == 0 {
      CountRemove(c, id);
    } else {
      CountPut(c, id, q);
    }
  }

  /** `getCartCount` as the source computes it: one pass over the keys. */
  method GetCartCount(c: Cart) returns (total: int)
    ensures total == Count(c)
    ensures total >= 0
  {
    total := 0;
    var i := 0;
    while i < |c|
      invariant 0 <= i <= |c|
      invariant total + Count(c[i..]) == Count(c)
    {
      assert c[i..][1..] == c[i + 1..];
      if c[i].qty > 0 {
        total := total + c[i].qty;
      }
      i := i + 1;
    }
  }

  /** `getCartAmount` on integer prices: Σ offerPrice × quantity over the
      positive entries. A positive entry whose product is not in the list
      makes `itemInfo.offerPrice` throw; non-positive entries are skipped
      without touching the product. */
  function CartAmount(products: Products, c: Cart): (r: Result<int>)
    ensures r.Ok? ==> r.value >= 0
  {
    if |c| == 0 then Ok(0)
    else
      if c[0].qty > 0 then
        match Find(products, c[0].id)
        case None => Err(UnknownProduct(c[0].id))
        case Some(p) => Shift(CartAmount(products, c[1..]), p.offerPrice * c[0].qty)
      else CartAmount(products, c[1..])
  }

  /** The amount fails exactly when a positive entry's product is missing,
      and then it names such a product. */
  lemma {:induction false} CartAmountFails(products: Products, c: Cart)
    ensures CartAmount(products, c).Ok?
            <==> forall i :: 0 <= i < |c| && c[i].qty > 0 ==> Known(products, c[i].id)
    ensures CartAmount(products, c).Err? ==>
              exists i :: 0 <= i < |c| && c[i].qty > 0 && !Known(products, c[i].id)
                          && CartAmount(products, c).error == UnknownProduct(c[i].id)
  {
    if |c| > 0 {
      CartAmountFails(products, c[1..]);
      assert forall i :: 1 <= i < |c| ==> c[1..][i - 1] == c[i];
      var r := CartAmount(products, c);
      if r.Err? && !(c[0].qty > 0 && !Known(products, c[0].id)) {
        var i :| 0 <= i < |c[1..]| && c[1..][i].qty > 0 && !Known(products, c[1..][i].id)
                 && CartAmount(products, c[1..]).error == UnknownProduct(c[1..][i].id);
        assert c[i + 1] == c[1..][i];
      }
    }
  }

  /** A cart without positive entries costs nothing. */
  lemma {:induction false} CartAmountOfEmpty(products: Products, c: Cart)
    requires Count(c) == 0
    ensures CartAmount(products, c) == Ok(0)
  {
    if |c| > 0 {
      assert c[0].qty <= 0;
      CartAmountOfEmpty(products, c[1..]);
    }
  }

  /** `getCartAmount` as the source computes it: one pass over the keys,
      stopping at the first positive entry with no product. */
  method GetCartAmount(products: Products, c: Cart) returns (r: Result<int>)
    ensures r == CartAmount(products, c)
  {
    var total := 0;
    var i := 0;
    while i < |c|
      invariant 0 <= i <= |c|
      invariant CartAmount(products, c) == Shift(CartAmount(products, c[i..]), total)
    {
      var rest := c[i..];
      assert rest[1..] == c[i + 1..];
      if c[i].qty > 0 {
        var info := Find(products, c[i].id);
        if info.None? {
          assert CartAmount(products, rest) == Err(UnknownProduct(c[i].id));
          return Err(UnknownProduct(c[i].id));
        }
        var line := info.value.offerPrice * c[i].qty;
        assert CartAmount(products, rest) == Shift(CartAmount(products, c[i + 1..]), line);
        total := total + line;
      } else {
        assert CartAmount(products, rest) == CartAmount(products, c[i + 1..]);
      }
      i := i + 1;
    }
    assert c[i..] == [];
    r := Ok(total);
  }

  /** What a mutation hands to the notification area. */
  datatype Notice = Silent | Toast(success: bool, text: string)

  /** One client transition: the new local cart, the body of the
      `/api/cart/update` request it triggers (if any), and the notice shown
      when that request settles. */
  datatype Step = Step(cart: Cart, sync: Option<Cart>, notice: Notice)

  /** The local cart is set first; a logged-in user's full cart is then
      posted; the outcome of the post only picks the notice. `sync` is the
      request the client attempts: a rejected `getToken` ends the attempt
      before sending, which shows only as `remoteOk` being false. */
  function Sync(next: Cart, loggedIn: bool, remoteOk: bool, okText: string): (s: Step)
    ensures s.cart == next
    ensures s.sync.Some? <==> loggedIn
    ensures s.sync.Some? ==> s.sync.value == next
    ensures s.notice.Toast? <==> loggedIn
    ensures s.notice.Toast? ==> (s.notice.success <==> remoteOk)
  {
    if !loggedIn then Step(next, None, Silent)
    else Step(next, Some(next), if remoteOk then Toast(true, okText) else Toast(false, ""))
  }

  function AddToCartStep(c: Cart, id: ProductId, loggedIn: bool, remoteOk: bool): (s: Step)
    ensures s.cart == AddToCart(c, id)
    ensures s.sync.Some? <==> loggedIn
    ensures s.sync.Some? ==> s.sync.value == s.cart
  {
    Sync(AddToCart(c, id), loggedIn, remoteOk, "Item added to the cart")
  }

  function UpdateCartQuantityStep(c: Cart, id: ProductId, q: int, loggedIn: bool, remoteOk: bool): (s: Step)
    ensures s.cart == UpdateCartQuantity(c, id, q)
    ensures s.sync.Some? <==> loggedIn
    ensures s.sync.Some? ==> s.sync.value == s.cart
  {
    Sync(UpdateCartQuantity(c, id, q), loggedIn, remoteOk, "Cart updated.")
  }

  /** A failed remote call does not roll the local cart back. */
  lemma NoRollback(c: Cart, id: ProductId, q: int, loggedIn: bool)
    ensures AddToCartStep(c, id, loggedIn, false).cart == AddToCartStep(c, id, loggedIn, true).cart
    ensures UpdateCartQuantityStep(c, id, q, loggedIn, false).cart
         == UpdateCartQuantityStep(c, id, q, loggedIn, true).cart
  {
  }
}

=== FILE: cart_sync.dfy ===
/** `POST /api/cart/update`: the authenticated user's stored cart is
    replaced by the posted cart as a whole. A missing user record makes
    `user.cartItems = ...` throw, which the route reports as a failure. */
module CartSync {
  import opened Base
  import opened Users
  import CartState

  datatype Reply = Reply(success: bool, store: Store)

  function Post(store: Store, userId: UserId, cartData: CartState.Cart): (r: Reply)
    ensures r.success <==> userId in store
    ensures !r.success ==> r.store == store
    ensures r.success ==> userId in r.store && r.store[userId].cartItems == cartData
    ensures r.success ==> r.store[userId] == store[userId].(cartItems := cartData)
    ensures OthersUnchanged(store, r.store, userId)
    ensures Keyed(store) ==> Keyed(r.store)
  {
    if userId !in store then Reply(false, store)
    else Reply(true, store[userId := store[userId].(cartItems := cartData)])
  }

  /** Posting the same cart again changes nothing more. */
  lemma PostIdempotent(store: Store, userId: UserId, cartData: CartState.Cart)
    ensures Post(Post(store, userId, cartData).store, userId, cartData) == Post(store, userId, cartData)
  {
  }

  /** Whatever was stored before, the last successful post wins: two posts
      leave the store as the second alone would. */
  lemma LastPostWins(store: Store, userId: UserId, first: CartState.Cart, second: CartState.Cart)
    ensures Post(Post(store, userId, first).store, userId, second) == Post(store, userId, second)
  {
  }
}

=== FILE: catalog.dfy ===
/** The product catalog as the core sees it: a read-only list of products,
    looked up by id. The client searches its fetched product list with
    `Array.prototype.find`; the server uses `Product.findById`. Both return
    the first product with that id, or nothing. */
module Catalog {
  import opened Base

  datatype Product = Product(id: ProductId, price: nat, offerPrice: nat, category: string)

  type Products = seq<Product>

  function Find(products: Products, id: ProductId): (r: Option<Product>)
    ensures r.None? <==> forall i :: 0 <= i < |products| ==> products[i].id != id
    ensures r.Some? ==> r.value.id == id
  {
    if |products| == 0 then None
    else if products[0].id == id then Some(products[0])
    else
      assert forall i :: 1 <= i < |products| ==> products[i] == products[1..][i - 1];
      Find(products[1..], id)
  }

  /** The product found is the first one in the list with that id. */
  lemma {:induction false} FindFirst(products: Products, id: ProductId)
    requires Find(products, id).Some?
    ensures exists i :: 0 <= i < |products| && products[i] == Find(products, id).value
                        && (forall j :: 0 <= j < i ==> products[j].id != id)
  {
    if products[0].id != id {
      FindFirst(products[1..], id);
      var i :| 0 <= i < |products[1..]| && products[1..][i] == Find(products[1..], id).value
               && (forall j :: 0 <= j < i ==> products[1..][j].id != id);
      assert products[i + 1] == Find(products, id).value;
      assert forall j :: 0 <= j < i + 1 ==> products[j].id != id by {
        forall j | 0 <= j < i + 1 ensures products[j].id != id {
          if j > 0 {
            assert products[j] == products[1..][j - 1];
          }
        }
      }
    } else {
      assert products[0] == Find(products, id).value;
    }
  }

  predicate Known(products: Products, id: ProductId) {
    Find(products, id).Some?
  }
}

=== FILE: checkout.dfy ===
/** The order summary panel: it turns the cart into an order request,
    refuses to send one without an address or without items, shows the
    amount, the 2% tax and the total, and empties the cart once the server
    accepts the order. */
module Checkout {
  import opened Base
  import opened Catalog
  import opened Pricing
  import opened CartState

  /** A saved shipping address; only its id leaves the client. */
  datatype Address = Address(id: AddressId, fullName: string, area: string, city: string, state: string)

  /** The body posted to `/api/order/create`. */
  datatype OrderRequest = OrderRequest(address: AddressId, items: seq<Item>)

  /** `Object.keys(cartItems).map(...)` followed by `filter(quantity > 0)`. */
  function BuildItems(c: Cart): (items: seq<Item>)
    ensures |items| <= |c|
    ensures forall i :: 0 <= i < |items| ==> items[i].quantity > 0
    ensures forall i :: 0 <= i < |items| ==> Entry(items[i].product, items[i].quantity) in c
  {
    if |c| == 0 then []
    else
      var rest := BuildItems(c[1..]);
      if c[0].qty > 0 then [Item(c[0].id, c[0].qty)] + rest else rest
  }

  /** No positive entry is dropped. */
  lemma {:induction false} BuildItemsComplete(c: Cart)
    ensures forall e :: e in c && e.qty > 0 ==> Item(e.id, e.qty) in BuildItems(c)
  {
    if |c| > 0 {
      BuildItemsComplete(c[1..]);
      assert forall e :: e in c ==> e == c[0] || e in c[1..];
    }
  }

  /** One cart entry yields at most one item, carrying its own key and
      quantity. */
  lemma BuildItemsOfEntry(e: Entry)
    ensures BuildItems([e]) == if e.qty > 0 then [Item(e.id, e.qty)] else []
  {
    assert [e][1..] == [];
  }

  /** The items follow the key order: building over two consecutive parts of
      a cart is building over each part in turn, so every key yields its item
      once, in place. */
  lemma {:induction false} BuildItemsAppend(c: Cart, d: Cart)
    ensures BuildItems(c + d) == BuildItems(c) + BuildItems(d)
  {
    if |c| == 0 {
      assert c + d == d;
    } else {
      assert (c + d)[0] == c[0];
      assert (c + d)[1..] == c[1..] + d;
      BuildItemsAppend(c[1..], d);
    }
  }

  /** The item list is empty exactly when the cart count is 0. */
  lemma {:induction false} BuildItemsEmpty(c: Cart)
    ensures |BuildItems(c)| == 0 <==> Count(c) == 0
  {
    if |c| > 0 {
      BuildItemsEmpty(c[1..]);
    }
  }

  /** `createOrder` up to the request: the address check comes first, then
      the empty-cart check; otherwise the request carries the address id and
      the positive cart entries. */
  function CreateOrder(selected: Option<Address>, c: Cart): (r: Result<OrderRequest>)
    ensures selected.None? ==> r == Err(NoAddressSelected)
    ensures selected.Some? && Count(c) == 0 ==> r == Err(CartEmpty)
    ensures r.Ok? <==> selected.Some? && Count(c) > 0
    ensures r.Ok? ==> r.value.address == selected.value.id && r.value.items == BuildItems(c)
                      && |r.value.items| > 0
  {
    if selected.None? then Err(NoAddressSelected)
    else
      var items := BuildItems(c);
      BuildItemsEmpty(c);
      if |items| == 0 then Err(CartEmpty)
      else Ok(OrderRequest(selected.value.id, items))
  }

  /** What `createOrder` leaves behind: either a rejection before any
      request, or the request sent and the cart that follows the reply. */
  datatype Placement = Rejected(error: Error) | Sent(request: OrderRequest, cart: Cart)

  /** `accepted` is the `success` field of the server's reply (false also
      for a request that threw). Only an accepted order clears the cart. */
  function PlaceOrder(selected: Option<Address>, c: Cart, accepted: bool): (p: Placement)
    ensures p.Rejected? <==> CreateOrder(selected, c).Err?
    ensures p.Rejected? ==> p.error == CreateOrder(selected, c).error
    ensures p.Sent? ==> p.request == CreateOrder(selected, c).value
    ensures p.Sent? && accepted ==> p.cart == []
    ensures p.Sent? && !accepted ==> p.cart == c
  {
    match CreateOrder(selected, c)
    case Err(e) => Rejected(e)
    case Ok(req) => Sent(req, if accepted then [] else c)
  }

  /** The figures of the "Order Summary" panel. */
  datatype Summary = Summary(count: int, amount: int, tax: int, total: int)

  /** Items count, amount, `Tax (2%)` and `Total`; the panel cannot render
      when the amount fails. */
  function ShowSummary(products: Products, c: Cart): (r: Result<Summary>)
    ensures r.Ok? <==> CartAmount(products, c).Ok?
    ensures r.Ok? ==> r.value.count == Count(c) && r.value.amount == CartAmount(products, c).value
    ensures r.Ok? ==> 50 * r.value.tax <= r.value.amount < 50 * r.value.tax + 50
    ensures r.Ok? ==> r.value.total == r.value.amount + r.value.tax
    ensures r.Ok? ==> 0 <= r.value.amount <= r.value.total
  {
    match CartAmount(products, c)
    case Err(e) => Err(e)
    case Ok(a) => Ok(Summary(Count(c), a, Tax(a), Total(a)))
  }

  /** The amount the panel shows is the amount the server recomputes from
      the submitted items: dropping the non-positive entries changes
      neither the sum nor the first missing product. */
  lemma {:induction false} ItemsAmountMatchesCart(products: Products, c: Cart)
    ensures ItemsAmount(products, BuildItems(c)) == CartAmount(products, c)
  {
    if |c| > 0 {
      ItemsAmountMatchesCart(products, c[1..]);
      var items := BuildItems(c);
      if c[0].qty > 0 {
        assert items == [Item(c[0].id, c[0].qty)] + BuildItems(c[1..]);
        assert items[0] == Item(c[0].id, c[0].qty);
        assert items[1..] == BuildItems(c[1..]);
        var tail := CartAmount(products, c[1..]);
        match Find(products, c[0].id)
        case None =>
          assert CartAmount(products, c) == Err(UnknownProduct(c[0].id));
          assert ItemsAmount(products, items) == Err(UnknownProduct(c[0].id));
        case Some(p) =>
          assert CartAmount(products, c) == Shift(tail, p.offerPrice * c[0].qty);
          assert ItemsAmount(products, items) == Shift(tail, p.offerPrice * c[0].qty);
      } else {
        assert items == BuildItems(c[1..]);
      }
    }
  }
}

=== FILE: order_batch.dfy ===
/** The `order/created` consumer: the queue hands it a batch of at most
    five events; it maps each event to an order document, copying the
    fields and moving `amount` into `amout` without recomputing anything,
    and stores the whole batch with one `insertMany`. */
module OrderBatch {
  import opened Base
  import opened OrderSchema

  const MaxBatchSize: nat := 5

  /** The `data` of an `order/created` event, as delivered. */
  datatype OrderEventData = OrderEventData(userId: Option<string>, address: Option<string>,
                                           items: Option<seq<ItemDoc>>, amount: Option<int>,
                                           date: Option<int>)

  /** The body of the `events.map` callback. */
  function ToDoc(e: OrderEventData): (d: OrderDoc)
    ensures d.status.None?
    ensures d.amout == e.amount
    ensures (d.userId, d.items, d.address, d.date) == (e.userId, e.items, e.address, e.date)
  {
    OrderDoc(e.userId, e.items, e.amount, e.address, None, e.date)
  }

  /** `events.map(...)`: one document per event, in event order. */
  function ToDocs(events: seq<OrderEventData>): (docs: seq<OrderDoc>)
    ensures |docs| == |events|
    ensures forall i :: 0 <= i < |events| ==> docs[i] == ToDoc(events[i])
  {
    if |events| == 0 then []
    else
      var rest := ToDocs(events[1..]);
      var docs := [ToDoc(events[0])] + rest;
      assert forall i :: 1 <= i < |docs| ==> docs[i] == rest[i - 1] && events[i] == events[1..][i - 1];
      docs
  }

  /** An event that carries every field the order needs. */
  predicate EventComplete(e: OrderEventData) {
    && RequiredString(e.userId)
    && RequiredString(e.address)
    && e.amount.Some?
    && e.date.Some?
    && (e.items.Some? ==> forall i :: 0 <= i < |e.items.value| ==> ItemValid(e.items.value[i]))
  }

  datatype BatchReply = BatchReply(orders: seq<Order>, processed: nat)

  /** `createUserOrder`: all events of the batch become orders, in order, or
      (when one document fails validation) none does. */
  function CreateUserOrder(orders: seq<Order>, events: seq<OrderEventData>): (r: Result<BatchReply>)
    requires 1 <= |events| <= MaxBatchSize
    ensures r.Ok? <==> forall i :: 0 <= i < |events| ==> EventComplete(events[i])
    ensures r.Err? ==> r.error == ValidationFailed
    ensures r.Ok? ==> r.value.processed == |events|
    ensures r.Ok? ==> |r.value.orders| == |orders| + |events| && r.value.orders[..|orders|] == orders
    ensures r.Ok? ==> forall i :: 0 <= i < |events| ==>
                        var o := r.value.orders[|orders| + i];
                        && o.userId == events[i].userId.value
                        && o.amout == events[i].amount.value
                        && o.address == events[i].address.value
                        && o.date == events[i].date.value
                        && o.status == DefaultStatus
                        && o.items == ValidateItems(events[i].items.GetOr([])).value
  {
    var docs := ToDocs(events);
    assert forall i :: 0 <= i < |docs| ==> (Complete(docs[i]) <==> EventComplete(events[i]));
    match InsertMany(orders, docs)
    case Err(e) => Err(e)
    case Ok(stored) => Ok(BatchReply(stored, |docs|))
  }

  /** A complete event always yields a storable order, with the default status. */
  lemma CompleteEventIsValid(e: OrderEventData)
    requires EventComplete(e)
    ensures Validate(ToDoc(e)).Ok?
    ensures Validate(ToDoc(e)).value.status == DefaultStatus
  {
  }

  /** An event without an amount cannot be stored, and neither can the rest
      of its batch. */
  lemma MissingAmountFailsBatch(orders: seq<Order>, events: seq<OrderEventData>, k: nat)
    requires 1 <= |events| <= MaxBatchSize && k < |events|
    requires events[k].amount.None?
    ensures CreateUserOrder(orders, events) == Err(ValidationFailed)
  {
  }
}

=== FILE: order_create.dfy ===
/** `POST /api/order/create`: validates the body, recomputes the amount from
    current catalog prices, emits the `order/created` event with the 2% tax
    already added, then empties the caller's stored cart. Authentication,
    the clock and the queue are parameters: `userId` is the verified caller,
    `now` is `Date.now()`, and `delivered` says whether `inngest.send`
    succeeded. */
module OrderCreate {
  import opened Base
  import opened Catalog
  import opened Pricing
  import opened Users

  /** The JSON body; a missing `address` is `None`. Items are typed: each
      carries a product id string and a numeric quantity, which the route
      itself never checks. */
  datatype Body = Body(address: Option<AddressId>, items: seq<Item>)

  /** The data of the emitted `order/created` event. */
  datatype OrderEvent = OrderEvent(userId: UserId, address: AddressId, items: seq<Item>,
                                   amount: int, date: int)

  /** The JSON reply: `success: true` with "Order Placed", or the failure. */
  datatype Status = Placed | Failed(error: Error)

  /** The reply, the event that was handed to the queue (if any), and the
      user store afterwards. */
  datatype Outcome = Outcome(status: Status, event: Option<OrderEvent>, store: Store)

  /** `!address`: absent or the empty string. */
  predicate MissingAddress(address: Option<AddressId>) {
    address.None? || address.value == ""
  }

  function Post(store: Store, products: Products, userId: UserId, body: Body,
                delivered: bool, now: int): (r: Outcome)
    // validation comes before any price lookup or event
    ensures MissingAddress(body.address) || |body.items| == 0 <==> r.status == Failed(InvalidData)
    ensures r.status == Failed(InvalidData) ==> r.event.None? && r.store == store
    // an unknown product fails the request before anything is sent
    ensures ItemsAmount(products, body.items).Err? ==> r.event.None? && r.store == store
    // the event is emitted exactly when validation and pricing pass and the send succeeds
    ensures r.event.Some? <==> !MissingAddress(body.address) && |body.items| > 0
                               && ItemsAmount(products, body.items).Ok? && delivered
    ensures r.event.Some? ==>
              var e := r.event.value;
              var amount := ItemsAmount(products, body.items).value;
              && e.userId == userId && e.address == body.address.value && e.items == body.items
              && e.amount == Total(amount) && e.date == now
    // success needs both the event and the cart reset
    ensures r.status == Placed <==> r.event.Some? && userId in store
    ensures r.status == Placed ==>
              userId in r.store && r.store[userId].cartItems == []
              && r.store[userId] == store[userId].(cartItems := [])
    ensures r.status != Placed ==> r.store == store
    ensures OthersUnchanged(store, r.store, userId)
  {
    if MissingAddress(body.address) || |body.items| == 0 then
      Outcome(Failed(InvalidData), None, store)
    else
      match ItemsAmount(products, body.items)
      case Err(e) => Outcome(Failed(e), None, store)
      case Ok(amount) =>
        if !delivered then Outcome(Failed(SendFailed), None, store)
        else
          var event := OrderEvent(userId, body.address.value, body.items, Total(amount), now);
          if userId !in store then Outcome(Failed(UserNotFound(userId)), Some(event), store)
          else Outcome(Placed, Some(event), store[userId := store[userId].(cartItems := [])])
  }

  /** The event goes out before the user is looked up: a caller with no user
      record gets a failure reply although the order event was emitted. */
  lemma EventEmittedForUnknownUser(store: Store, products: Products, userId: UserId,
                                   body: Body, now: int)
    requires userId !in store
    requires !MissingAddress(body.address) && |body.items| > 0
    requires ItemsAmount(products, body.items).Ok?
    ensures Post(store, products, userId, body, true, now).status == Failed(UserNotFound(userId))
    ensures Post(store, products, userId, body, true, now).event.Some?
  {
  }

  /** A two-product catalog with offer prices 10 and 25: two of the first
      and one of the second give 45, under the 50 threshold, so no tax. */
  lemma ScenarioNoTax(store: Store, userId: UserId, now: int)
    requires userId in store
    ensures var products := [Product("p1", 12, 10, "c"), Product("p2", 30, 25, "c")];
            var body := Body(Some("a1"), [Item("p1", 2), Item("p2", 1)]);
            var r := Post(store, products, userId, body, true, now);
            r.status == Placed && r.event.value.amount == 45
  {
    var products := [Product("p1", 12, 10, "c"), Product("p2", 30, 25, "c")];
    assert Find(products, "p2") == Some(products[1]);
    assert ItemsAmount(products, [Item("p2", 1)]) == Ok(25);
    assert ItemsAmount(products, [Item("p1", 2), Item("p2", 1)]) == Ok(45);
  }

  /** One hundred units at 10 give 1000 and an event amount of 1020. */
  lemma ScenarioTax(store: Store, userId: UserId, now: int)
    requires userId in store
    ensures var products := [Product("p1", 12, 10, "c")];
            var r := Post(store, products, userId, Body(Some("a1"), [Item("p1", 100)]), true, now);
            r.status == Placed && r.event.value.amount == 1020
  {
    var products := [Product("p1", 12, 10, "c")];
    assert ItemsAmount(products, [Item("p1", 100)]) == Ok(1000);
  }
}

=== FILE: order_schema.dfy ===
/** The Order schema: what a document must carry to be stored, and the
    default status it gets. A document is the loosely typed object handed
    to the database layer, so every field may be missing. Mongoose's
    `required` rejects a missing value and, for strings, the empty string;
    an array field left undefined becomes `[]`. */
module OrderSchema {
  import opened Base

  const DefaultStatus: string := "Order Placed"

  datatype ItemDoc = ItemDoc(product: Option<string>, quantity: Option<int>)

  datatype OrderDoc = OrderDoc(userId: Option<string>, items: Option<seq<ItemDoc>>,
                               amout: Option<int>, address: Option<string>,
                               status: Option<string>, date: Option<int>)

  datatype OrderItem = OrderItem(product: string, quantity: int)

  /** A stored order. The amount field is spelled `amout` in the schema. */
  datatype Order = Order(userId: string, items: seq<OrderItem>, amout: int, address: string,
                         status: string, date: int)

  /** `required: true` on a String path. */
  predicate RequiredString(s: Option<string>) {
    s.Some? && s.value != ""
  }

  predicate ItemValid(d: ItemDoc) {
    RequiredString(d.product) && d.quantity.Some?
  }

  /** Casts the item subdocuments; one invalid item fails the order. */
  function ValidateItems(docs: seq<ItemDoc>): (r: Result<seq<OrderItem>>)
    ensures r.Ok? <==> forall i :: 0 <= i < |docs| ==> ItemValid(docs[i])
    ensures r.Err? ==> r.error == ValidationFailed
    ensures r.Ok? ==> |r.value| == |docs|
    ensures r.Ok? ==> forall i :: 0 <= i < |docs| ==>
                        r.value[i] == OrderItem(docs[i].product.value, docs[i].quantity.value)
  {
    if |docs| == 0 then Ok([])
    else if !ItemValid(docs[0]) then Err(ValidationFailed)
    else
      var rest := ValidateItems(docs[1..]);
      assert forall i :: 1 <= i < |docs| ==> docs[1..][i - 1] == docs[i];
      if rest.Err? then Err(ValidationFailed)
      else
        var items := [OrderItem(docs[0].product.value, docs[0].quantity.value)] + rest.value;
        assert forall i :: 1 <= i < |items| ==> items[i] == rest.value[i - 1];
        Ok(items)
  }

  /** The required paths of the schema, with the item array defaulting to `[]`. */
  predicate Complete(d: OrderDoc) {
    && RequiredString(d.userId)
    && d.amout.Some?
    && RequiredString(d.address)
    && (d.status.None? || RequiredString(d.status))
    && d.date.Some?
    && (d.items.Some? ==> forall i :: 0 <= i < |d.items.value| ==> ItemValid(d.items.value[i]))
  }

  /** Casting a document to an order: defaults first, then validation. */
  function Validate(d: OrderDoc): (r: Result<Order>)
    ensures r.Ok? <==> Complete(d)
    ensures r.Err? ==> r.error == ValidationFailed
    ensures r.Ok? ==> r.value.userId == d.userId.value && r.value.amout == d.amout.value
                      && r.value.address == d.address.value && r.value.date == d.date.value
    ensures r.Ok? && d.status.None? ==> r.value.status == DefaultStatus
    ensures r.Ok? && d.status.Some? ==> r.value.status == d.status.value
    ensures r.Ok? && d.items.None? ==> r.value.items == []
    ensures r.Ok? && d.items.Some? ==> ValidateItems(d.items.value) == Ok(r.value.items)
  {
    var status := d.status.GetOr(DefaultStatus);
    var items := ValidateItems(d.items.GetOr([]));
    if !RequiredString(d.userId) || d.amout.None? || !RequiredString(d.address)
       || !RequiredString(Some(status)) || d.date.None? || items.Err?
    then Err(ValidationFailed)
    else Ok(Order(d.userId.value, items.value, d.amout.value, d.address.value, status, d.date.value))
  }

  /** `Order.insertMany` with the default `ordered` option: every document is
      validated before any is written, so one invalid document stores
      nothing; otherwise all are appended in the given order. */
  function InsertMany(orders: seq<Order>, docs: seq<OrderDoc>): (r: Result<seq<Order>>)
    ensures r.Ok? <==> forall i :: 0 <= i < |docs| ==> Complete(docs[i])
    ensures r.Err? ==> r.error == ValidationFailed
    ensures r.Ok? ==> |r.value| == |orders| + |docs| && r.value[..|orders|] == orders
    ensures r.Ok? ==> forall i :: 0 <= i < |docs| ==> Validate(docs[i]) == Ok(r.value[|orders| + i])
    decreases |docs|
  {
    if |docs| == 0 then Ok(orders)
    else
      match Validate(docs[0])
      case Err(e) => Err(e)
      case Ok(o) =>
        var rest := InsertMany(orders + [o], docs[1..]);
        assert forall i :: 1 <= i < |docs| ==> docs[1..][i - 1] == docs[i];
        if rest.Ok? then
          assert rest.value[..|orders|] == (orders + [o])[..|orders|];
          rest
        else rest
  }
}

=== FILE: pipeline.dfy ===
/** How the pieces fit: the client's cart transitions reach the stored cart
    through the sync endpoint, the order summary's request passes the
    server's checks, the server charges what the panel displayed, and the
    batch consumer stores exactly that amount. */
module Pipeline {
  import opened Base
  import opened Catalog
  import opened Pricing
  import opened CartState
  import opened Checkout
  import opened Users
  import CartSync
  import OrderCreate
  import opened OrderSchema
  import opened OrderBatch

  /** The body the order summary posts. */
  function BodyOf(req: OrderRequest): OrderCreate.Body {
    OrderCreate.Body(Some(req.address), req.items)
  }

  /** The event as the consumer receives it after JSON transport. */
  function EventData(e: OrderCreate.OrderEvent): (d: OrderEventData)
    ensures d.items.Some? && |d.items.value| == |e.items|
    ensures forall i :: 0 <= i < |e.items| ==>
              d.items.value[i] == ItemDoc(Some(e.items[i].product), Some(e.items[i].quantity))
  {
    var docs := seq(|e.items|, i requires 0 <= i < |e.items| =>
                  ItemDoc(Some(e.items[i].product), Some(e.items[i].quantity)));
    OrderEventData(Some(e.userId), Some(e.address), Some(docs), Some(e.amount), Some(e.date))
  }

  /** The stored order lines are the submitted items, one for one. */
  ghost predicate StoredItemsMatch(stored: seq<OrderItem>, sent: seq<Item>) {
    |stored| == |sent|
    && forall i :: 0 <= i < |sent| ==> stored[i] == OrderItem(sent[i].product, sent[i].quantity)
  }

  /** A logged-in cart change, once its sync reaches the endpoint, leaves
      the stored cart equal to the local one, whatever was stored before. */
  lemma SyncedCartMatchesLocal(store: Store, userId: UserId, c: Cart, id: ProductId, q: int,
                               add: bool, remoteOk: bool)
    requires userId in store
    ensures var s := if add then AddToCartStep(c, id, true, remoteOk)
                     else UpdateCartQuantityStep(c, id, q, true, remoteOk);
            CartSync.Post(store, userId, s.sync.value).store[userId].cartItems == s.cart
  {
  }

  /** The client never reads the cart reply's `success`: for a logged-in
      caller without a user record the endpoint stores nothing and answers
      `success: false`, yet the reply arrives, so the success notice shows. */
  lemma SuccessNoticeWithoutStoredCart(store: Store, userId: UserId, c: Cart, id: ProductId, q: int)
    requires userId !in store
    ensures var s := AddToCartStep(c, id, true, true);
            var reply := CartSync.Post(store, userId, s.sync.value);
            !reply.success && reply.store == store && s.notice == Toast(true, "Item added to the cart")
    ensures var s := UpdateCartQuantityStep(c, id, q, true, true);
            var reply := CartSync.Post(store, userId, s.sync.value);
            !reply.success && reply.store == store && s.notice == Toast(true, "Cart updated.")
  {
  }

  /** The order route's cart reset is the cart endpoint posting `{}`. */
  lemma OrderClearsCartLikeSync(store: Store, products: Products, userId: UserId,
                                body: OrderCreate.Body, now: int)
    requires OrderCreate.Post(store, products, userId, body, true, now).status.Placed?
    ensures OrderCreate.Post(store, products, userId, body, true, now).store
         == CartSync.Post(store, userId, []).store
  {
  }

  /** A request the order summary sends is never refused as "Invalid data". */
  lemma ClientRequestIsValid(selected: Address, c: Cart, store: Store, products: Products,
                             userId: UserId, delivered: bool, now: int)
    requires selected.id != ""
    requires CreateOrder(Some(selected), c).Ok?
    ensures OrderCreate.Post(store, products, userId, BodyOf(CreateOrder(Some(selected), c).value),
                             delivered, now).status != OrderCreate.Failed(InvalidData)
  {
  }

  /** Every event the route emits for a body of typed items (a product id
      string and a numeric quantity each) can be stored by the consumer,
      provided the caller and the catalog's product ids are non-empty
      strings. An untyped item is outside the model: see `OrderCreate.Body`. */
  lemma {:induction false} EmittedEventIsComplete(store: Store, products: Products, userId: UserId,
                                                  body: OrderCreate.Body, now: int)
    requires userId != ""
    requires forall i :: 0 <= i < |products| ==> products[i].id != ""
    requires OrderCreate.Post(store, products, userId, body, true, now).event.Some?
    ensures EventComplete(EventData(OrderCreate.Post(store, products, userId, body, true, now).event.value))
  {
    var e := OrderCreate.Post(store, products, userId, body, true, now).event.value;
    var d := EventData(e);
    forall i | 0 <= i < |d.items.value|
      ensures ItemValid(d.items.value[i])
    {
      assert Known(products, e.items[i].product);
    }
  }

  /** The whole checkout: with the same catalog on both sides, the route
      charges exactly the total the summary panel displayed, the stored cart
      and the local cart both end empty, and the consumer stores one order
      whose `amout` is that total and whose status is "Order Placed". */
  lemma {:induction false} CheckoutCharges(store: Store, orders: seq<Order>, products: Products,
                                           userId: UserId, selected: Address, c: Cart, now: int)
    requires userId != "" && userId in store && selected.id != ""
    requires forall i :: 0 <= i < |products| ==> products[i].id != ""
    requires ShowSummary(products, c).Ok?
    requires Count(c) > 0
    ensures var req := CreateOrder(Some(selected), c);
            var out := OrderCreate.Post(store, products, userId, BodyOf(req.value), true, now);
            && req.Ok?
            && out.status == OrderCreate.Placed
            && out.event.value.amount == ShowSummary(products, c).value.total
            && out.store[userId].cartItems == []
            && PlaceOrder(Some(selected), c, true).cart == []
            && var batch := CreateUserOrder(orders, [EventData(out.event.value)]);
               && batch.Ok?
               && batch.value.orders[|orders|].amout == ShowSummary(products, c).value.total
               && batch.value.orders[|orders|].status == DefaultStatus
               && StoredItemsMatch(batch.value.orders[|orders|].items, BuildItems(c))
  {
    var req := CreateOrder(Some(selected), c);
    var body := BodyOf(req.value);
    ItemsAmountMatchesCart(products, c);
    assert ItemsAmount(products, body.items) == CartAmount(products, c);
    var out := OrderCreate.Post(store, products, userId, body, true, now);
    EmittedEventIsComplete(store, products, userId, body, now);
    var data := EventData(out.event.value);
    var batch := CreateUserOrder(orders, [data]);
    assert batch.Ok?;
  }
}

=== FILE: pricing.dfy ===
/** Price arithmetic shared by the order summary and the order-creation
    route: the amount of a list of order items at current catalog prices,
    the 2% tax rounded down, and the total charged. */
module Pricing {
  import opened Base
  import opened Catalog

  /** One line of an order request: `{ product, quantity }`. */
  datatype Item = Item(product: ProductId, quantity: int)

  /** `Math.floor(amount * 0.02)`: the largest t with 50·t <= amount. */
  function Tax(amount: int): (t: int)
    ensures 50 * t <= amount < 50 * t + 50
    ensures 0 <= amount ==> 0 <= t <= amount
  {
    amount / 50
  }

  /** `amount + Math.floor(amount * 0.02)`: what the customer is charged. */
  function Total(amount: int): (total: int)
    ensures 50 * (total - amount) <= amount < 50 * (total - amount) + 50
    ensures 0 <= amount ==> amount <= total
  {
    amount + Tax(amount)
  }

  lemma TotalExamples()
    ensures Total(1000) == 1020
    ensures Total(45) == 45
    ensures Total(49) == 49 && Total(50) == 51
  {
  }

  /** Tax never decreases when the amount grows. */
  lemma {:induction false} TaxMonotonic(a: int, b: int)
    requires a <= b
    ensures Tax(a) <= Tax(b)
    ensures Total(a) <= Total(b)
  {
    assert 50 * Tax(a) < 50 * (Tax(b) + 1);
  }

  /** The server's `items.reduce`: Σ offerPrice × quantity, in list order,
      failing on the first item whose product the catalog does not hold. */
  function ItemsAmount(products: Products, items: seq<Item>): (r: Result<int>)
    ensures r.Ok? <==> forall i :: 0 <= i < |items| ==> Known(products, items[i].product)
    ensures r.Err? ==> exists i :: 0 <= i < |items| && r.error == UnknownProduct(items[i].product)
                                   && !Known(products, items[i].product)
                                   && (forall j :: 0 <= j < i ==> Known(products, items[j].product))
    ensures r.Ok? && (forall i :: 0 <= i < |items| ==> items[i].quantity >= 0) ==> r.value >= 0
  {
    if |items| == 0 then Ok(0)
    else
      match Find(products, items[0].product)
      case None => Err(UnknownProduct(items[0].product))
      case Some(p) =>
        assert forall j :: 0 <= j < |items[1..]| ==> items[1..][j] == items[j + 1];
        Shift(ItemsAmount(products, items[1..]), p.offerPrice * items[0].quantity)
  }
}

=== FILE: user_sync.dfy ===
/** The identity-provider handlers: `clerk/user.created` inserts a record,
    `clerk/user.updated` rewrites the profile of an existing record, and
    `clerk/user.deleted` removes one. The create and update handlers read
    `email_addresses[0]` before touching the store, so a payload without an
    email address fails first; the delete handler reads only the id. */
module UserSync {
  import opened Base
  import opened Users

  /** A name field of the payload as JSON delivers it: a string, `null`, or
      absent (`undefined` once destructured). */
  datatype NameField = Text(text: string) | Null | Missing

  /** What `+` with a string makes of a name field: `null` and `undefined`
      are spelled out rather than dropped. */
  function Render(f: NameField): (r: string)
    ensures f.Text? ==> r == f.text
    ensures f.Null? ==> r == "null"
    ensures f.Missing? ==> r == "undefined"
  {
    match f
    case Text(t) => t
    case Null => "null"
    case Missing => "undefined"
  }

  /** The fields of an identity payload that the handlers read. */
  datatype IdentityData = IdentityData(id: UserId, firstName: NameField, lastName: NameField,
                                       emailAddresses: seq<string>, imageUrl: string)

  /** The profile both handlers derive from a payload. */
  datatype Profile = Profile(id: UserId, email: string, name: string, imageUrl: string)

  function ProfileOf(d: IdentityData): (r: Result<Profile>)
    ensures r.Ok? <==> |d.emailAddresses| > 0
    ensures r.Err? ==> r.error == NoEmailAddress
    ensures r.Ok? ==> r.value.id == d.id && r.value.email == d.emailAddresses[0]
                      && r.value.imageUrl == d.imageUrl
    ensures r.Ok? ==> |r.value.name| == |Render(d.firstName)| + 1 + |Render(d.lastName)|
    ensures r.Ok? ==> r.value.name[..|Render(d.firstName)|] == Render(d.firstName)
                      && r.value.name[|Render(d.firstName)|] == ' '
                      && r.value.name[|Render(d.firstName)| + 1..] == Render(d.lastName)
  {
    if |d.emailAddresses| == 0 then Err(NoEmailAddress)
    else Ok(Profile(d.id, d.emailAddresses[0], Render(d.firstName) + " " + Render(d.lastName), d.imageUrl))
  }

  /** A payload without a last name stores the first name followed by
      " null" or " undefined", not the first name alone. */
  lemma AbsentLastNameIsSpelledOut(d: IdentityData)
    requires |d.emailAddresses| > 0 && d.firstName == Text("Ada")
    ensures d.lastName.Null? ==> ProfileOf(d).value.name == "Ada null"
    ensures d.lastName.Missing? ==> ProfileOf(d).value.name == "Ada undefined"
  {
  }

  /** `User.create`: an insert. A second create for the same id violates the
      unique `_id` index and fails; it never overwrites. */
  function Created(store: Store, d: IdentityData): (r: Result<Store>)
    ensures r.Ok? <==> |d.emailAddresses| > 0 && d.id !in store
    ensures |d.emailAddresses| == 0 ==> r == Err(NoEmailAddress)
    ensures |d.emailAddresses| > 0 && d.id in store ==> r == Err(DuplicateUser(d.id))
    ensures r.Ok? ==> r.value.Keys == store.Keys + {d.id}
    ensures r.Ok? ==> r.value[d.id].id == d.id && r.value[d.id].email == d.emailAddresses[0]
                      && r.value[d.id].imageUrl == d.imageUrl && r.value[d.id].cartItems == []
    ensures r.Ok? ==> var p := ProfileOf(d).value;
                      r.value[d.id] == User(p.id, p.email, p.name, p.imageUrl, [])
    ensures r.Ok? ==> OthersUnchanged(store, r.value, d.id)
    ensures r.Ok? && Keyed(store) ==> Keyed(r.value)
  {
    match ProfileOf(d)
    case Err(e) => Err(e)
    case Ok(p) =>
      if p.id in store then Err(DuplicateUser(p.id))
      else Ok(store[p.id := User(p.id, p.email, p.name, p.imageUrl, [])])
  }

  /** `User.findByIdAndUpdate` without `upsert`: an existing record gets the
      new profile and keeps its cart; an absent id is left absent. */
  function Updated(store: Store, d: IdentityData): (r: Result<Store>)
    ensures r.Ok? <==> |d.emailAddresses| > 0
    ensures r.Err? ==> r.error == NoEmailAddress
    ensures r.Ok? ==> r.value.Keys == store.Keys
    ensures r.Ok? && d.id !in store ==> r.value == store
    ensures r.Ok? && d.id in store ==>
              r.value[d.id].email == d.emailAddresses[0] && r.value[d.id].imageUrl == d.imageUrl
              && r.value[d.id].cartItems == store[d.id].cartItems
    ensures r.Ok? && d.id in store ==>
              var p := ProfileOf(d).value;
              r.value[d.id] == store[d.id].(id := p.id, email := p.email, name := p.name, imageUrl := p.imageUrl)
    ensures r.Ok? ==> OthersUnchanged(store, r.value, d.id)
    ensures r.Ok? && Keyed(store) ==> Keyed(r.value)
  {
    match ProfileOf(d)
    case Err(e) => Err(e)
    case Ok(p) =>
      if p.id !in store then Ok(store)
      else Ok(store[p.id := store[p.id].(id := p.id, email := p.email, name := p.name, imageUrl := p.imageUrl)])
  }

  /** `User.findByIdAndDelete`: removes the record if there is one. */
  function Deleted(store: Store, id: UserId): (r: Store)
    ensures id !in r
    ensures r.Keys == store.Keys - {id}
    ensures id !in store ==> r == store
    ensures OthersUnchanged(store, r, id)
    ensures Keyed(store) ==> Keyed(r)
  {
    store - {id}
  }

  /** The three identity events, routed by kind. */
  datatype IdentityEvent =
    | UserCreated(data: IdentityData)
    | UserUpdated(data: IdentityData)
    | UserDeleted(id: UserId)
  {
    function Subject(): UserId {
      match this
      case UserCreated(d) => d.id
      case UserUpdated(d) => d.id
      case UserDeleted(id) => id
    }
  }

  /** Every identity event touches at most the record it names. */
  function Apply(store: Store, e: IdentityEvent): (r: Result<Store>)
    ensures r.Ok? ==> OthersUnchanged(store, r.value, e.Subject())
    ensures r.Ok? && Keyed(store) ==> Keyed(r.value)
    ensures e.UserCreated? ==> (r.Ok? <==> |e.data.emailAddresses| > 0 && e.data.id !in store)
                               && (r.Ok? ==> r.value.Keys == store.Keys + {e.data.id})
    ensures e.UserUpdated? ==> (r.Ok? <==> |e.data.emailAddresses| > 0)
                               && (r.Ok? ==> r.value.Keys == store.Keys)
    ensures e.UserDeleted? ==> r.Ok? && r.value.Keys == store.Keys - {e.id}
  {
    match e
    case UserCreated(d) => Created(store, d)
    case UserUpdated(d) => Updated(store, d)
    case UserDeleted(id) => Ok(Deleted(store, id))
  }

  /** Delivering a create twice: the second delivery fails and the store is
      the one the first delivery left. */
  lemma CreatedTwice(store: Store, d: IdentityData)
    requires Created(store, d).Ok?
    ensures Created(Created(store, d).value, d) == Err(DuplicateUser(d.id))
  {
  }

  /** Updates are idempotent. */
  lemma {:induction false} UpdatedTwice(store: Store, d: IdentityData)
    requires Updated(store, d).Ok?
    ensures Updated(Updated(store, d).value, d) == Updated(store, d)
  {
    var once := Updated(store, d).value;
    if d.id in store {
      var p := ProfileOf(d).value;
      var u := once[d.id];
      assert u.(id := p.id, email := p.email, name := p.name, imageUrl := p.imageUrl) == u;
      assert once[d.id := u] == once;
    }
  }

  /** Deletes are idempotent, so a redelivered delete is harmless. */
  lemma DeletedTwice(store: Store, id: UserId)
    ensures Deleted(Deleted(store, id), id) == Deleted(store, id)
  {
  }

  /** Deleting what was just created restores the earlier store. */
  lemma {:induction false} DeleteUndoesCreate(store: Store, d: IdentityData)
    requires Created(store, d).Ok?
    ensures Deleted(Created(store, d).value, d.id) == store
  {
    var after := Deleted(Created(store, d).value, d.id);
    assert after.Keys == store.Keys;
  }

  /** An update that follows the create with the same payload changes
      nothing: both handlers derive the same profile. */
  lemma {:induction false} UpdateAfterCreate(store: Store, d: IdentityData)
    requires Created(store, d).Ok?
    ensures Updated(Created(store, d).value, d) == Created(store, d)
  {
    var created := Created(store, d).value;
    var p := ProfileOf(d).value;
    var u := created[d.id];
    assert u.(id := p.id, email := p.email, name := p.name, imageUrl := p.imageUrl) == u;
    assert created[d.id := u] == created;
  }

  /** Events are applied in arrival order with no version check: an update
      that arrives before the create of a new user is dropped, and the
      record keeps the create's older profile. */
  lemma UpdateBeforeCreateIsLost(store: Store, older: IdentityData, newer: IdentityData)
    requires older.id == newer.id && older.id !in store
    requires |older.emailAddresses| > 0 && |newer.emailAddresses| > 0
    ensures Updated(store, newer) == Ok(store)
    ensures Created(Updated(store, newer).value, older) == Created(store, older)
    ensures Created(store, older).value[older.id].email == older.emailAddresses[0]
  {
  }
}

=== FILE: users.dfy ===
/** The stored user records, keyed by the identity provider's user id. Each
    record carries the profile fields and the last cart the client posted.
    The User schema itself (models/User.js) is not part of this model: a new
    record is taken to start with an empty cart. */
module Users {
  import opened Base
  import CartState

  datatype User = User(id: UserId, email: string, name: string, imageUrl: string,
                       cartItems: CartState.Cart)

  type Store = map<UserId, User>

  /** Every record is filed under its own id. */
  ghost predicate Keyed(store: Store) {
    forall u :: u in store ==> store[u].id == u
  }

  /** Two stores that agree everywhere except possibly at `id`. */
  ghost predicate OthersUnchanged(before: Store, after: Store, id: UserId) {
    && (forall u :: u != id ==> (u in before <==> u in after))
    && (forall u :: u != id && u in before ==> after[u] == before[u])
  }
}
